=== FILE: README.md ===
# Camera routine — a verified model

`cameraRoutine.mjs` exports `initCameraRoutine(config)`. It binds a camera
button, a download button, a `<video>`, a `<canvas>` and a gallery `<div>`.
The camera button turns the device camera on the first time it is clicked
(`ligarCamera`). If that first attempt succeeds, each later click takes a photo
(`tirarFoto`): the current frame goes into the photo list `imagens`, and a
thumbnail with a checkbox goes into the gallery. If it fails, later clicks do
nothing (`LigarOnlyOnce`). The download button (`baixarZip`) packs the
checked photos into `fotos_selecionadas.zip`, named `foto_<n>.png`. The
routine returns `getImagens`, `isCameraAtiva`, `desligarCamera` and
`limparGaleria`.

This project models two parts of that file:

- **The controller state** (`camera_routine.dfy`, class `Routine`). The fields
  are the closure variables `imagens`, `cameraAtiva`, `stream` and
  `ligandoCamera`. They sit beside the button text, the video's `srcObject`,
  the gallery's checkbox values and the canvas size. Each handler is a method
  that updates the fields in place. Its contract ties the new state to a
  function of the old one in `camera_state.dfy`: `Ligar`, `Desligar`,
  `Capture`, `Click` and `Limpar`. Properties that span several handlers are
  proved over those functions, including over any sequence of events (`Run`).
- **The archive entry builder** (`zip_export.dfy`). It maps the checked
  checkbox ids and the photo list to the `zip.file(name, data)` calls. The
  `forEach` loop is the method `BuildEntries`, proved equal to the function
  `ZipEntries`.

`js_text.dfy` models the two JavaScript string built-ins that the code relies
on: decimal `String(n)`/`Number(s)` and `split(',')`. `wrappers.dfy` holds
`Option`.

## Behaviour as written

- `ligandoCamera` is set to `true` and nothing ever resets it
  (cameraRoutine.mjs:68, 79). After the first activation attempt, every later
  `ligarCamera` does nothing. This holds after a failure and after
  `desligarCamera`. So the camera can be turned on at most once per routine.
  The model keeps this behaviour; see `LigarOnlyOnce`, `GuardNeverReleased`
  and `NoActivationAfterFirstAttempt`. A design where the guard is released after
  each attempt would behave differently.
- `desligarCamera` stops the stream's tracks but does not clear `stream`. If
  `getUserMedia` succeeds and `play()` then fails, the stream is held and
  shown while the camera is off. So "a stream is held exactly while the camera
  is active" is not an invariant of the code. Also, `desligarCamera` on that
  inactive state still changes it (`PlayRejectedKeepsStream`).
- The payload is `src.split(',')[1]`: the text between the first comma and
  the next comma (or the end). It is `undefined` when there is no comma. For a
  data URL this is the base64 text (`PayloadOfDataUrl`).
- A checkbox's value is `String(foto.id)`. `find` compares it to a photo id
  with loose `==`, which reads the string back as a number. The model
  compares the ids directly. That is exact because reading back the decimal
  text of a non-negative integer gives the integer (`JsText.DecimalRoundTrip`).
- File numbers are checkbox positions among the checked boxes, counted from 1.
  A checked id with no photo is skipped and leaves a gap in the numbering. If
  two photos share an id (two captures in the same millisecond), both
  checkboxes export the first photo (`DuplicateIdExportsFirstPhoto`).

## Model

| member | source | states |
|---|---|---|
| `CameraState.ResolveTextos` | cameraRoutine.mjs:50-55 | each label is the override when one is given and non-empty, otherwise its default; the two are resolved independently; neither label is ever empty |
| `CameraState.OrElse` | cameraRoutine.mjs:52-54 | the logical-or default yields the fallback or the present value, and is never empty when the fallback is not (full rule in `ResolveTextos`) |
| `CameraState.CanvasDim` | cameraRoutine.mjs:130-133 | the canvas dimension is the reported video dimension when it is positive, else 300; never zero |
| `CameraState.Initial` | cameraRoutine.mjs:61-68 | the routine starts with no photos, empty gallery, camera off, guard down, no stream; the labels are `ResolveTextos` of the configuration and the button shows the "off" label; the canvas keeps its given size; satisfies the invariant |
| `CameraState.Ligar` | cameraRoutine.mjs:75-105 | no-op when the guard is up or the camera is on; otherwise raises the guard and: a denied `getUserMedia` leaves stream, video and label as they were; a failed `play()` holds and shows the obtained stream `h` with the camera off and the label unchanged; a started playback holds and shows stream `h`, turns the camera on and shows the "photo" label; never touches photos or gallery; keeps the invariant |
| `CameraState.StopTracks` | cameraRoutine.mjs:110-113 | stopping tracks keeps a stream exactly when there was one, with the same handle, now stopped (its use stated by `Desligar`) |
| `CameraState.Desligar` | cameraRoutine.mjs:108-120 | camera off, video detached, "off" label, in any state; the stream is kept (same handle) with its tracks stopped; photos, gallery, guard, labels and canvas unchanged; keeps the invariant |
| `CameraState.Capture` | cameraRoutine.mjs:127-152 | appends exactly one photo `{id: now, src}` and one gallery checkbox carrying that id, earlier ones unchanged; the canvas takes the reported video width and height, each replaced by 300 when 0 or missing (so never zero); flags, stream, video, label and labels unchanged; keeps the invariant |
| `CameraState.Click` | cameraRoutine.mjs:260-269 | the click handler's effect keeps the invariant (dispatch stated by `ClickDispatch`) |
| `CameraState.Limpar` | cameraRoutine.mjs:287-292 | photos and gallery both empty; camera flags, stream, video, label, labels and canvas unchanged; keeps the invariant |
| `CameraState.Step` | cameraRoutine.mjs:260-292 | every handler keeps the invariant: gallery mirrors photos, label matches flag, no stream before the first attempt, an active camera shows a live stream |
| `CameraState.RunKeepsInv` | cameraRoutine.mjs:61-68 | the invariant holds after any sequence of clicks, shutdowns and clears |
| `CameraState.ClickDispatch` | cameraRoutine.mjs:260-269 | a click adds a photo exactly when the camera flag is on; otherwise it attempts activation (guard up afterwards) and adds no photo |
| `CameraState.LabelShowsFlag` | cameraRoutine.mjs:257-269 | when the two labels differ, the button shows the "photo" label exactly when the camera is on |
| `CameraState.LigarOnlyOnce` | cameraRoutine.mjs:78-79 | after the first activation attempt, whatever its outcome and whatever events follow, every later `ligarCamera` leaves the state unchanged |
| `CameraState.GuardNeverReleased` | cameraRoutine.mjs:68-79 | once `ligandoCamera` is true it stays true after any sequence of events |
| `CameraState.NoActivationAfterFirstAttempt` | cameraRoutine.mjs:78-104 | after an attempt that left the camera off, no event sequence turns it on again, takes a photo or changes the stream handle |
| `CameraState.SessionHandleFixed` | cameraRoutine.mjs:82-85 | once a stream is held, every later state holds a stream with the same handle: at most one stream is ever obtained |
| `CameraState.DesligarIdempotent` | cameraRoutine.mjs:108-120 | deactivating twice equals deactivating once |
| `CameraState.DesligarFixedPoint` | cameraRoutine.mjs:108-120 | deactivation leaves the state unchanged exactly when the camera is off, the video detached, the "off" label shown and any stream already stopped |
| `CameraState.PlayRejectedKeepsStream` | cameraRoutine.mjs:82-104 | when `play()` fails, the camera is off while a live stream is held and shown, and a later deactivation still changes the state |
| `JsText.DecimalString` | cameraRoutine.mjs:182 | `String(n)` is a non-empty string of decimal digits with no leading zero unless n is 0, so the form is canonical (its inverse stated by `DecimalRoundTrip`) |
| `JsText.Split` | cameraRoutine.mjs:229 | `split` always yields at least one piece (that the pieces are exactly the text cut at each separator is `SplitJoin`) |
| `JsText.DecimalRoundTrip` | cameraRoutine.mjs:182 | the checkbox value `String(id)` reads back as `id` |
| `JsText.DecimalInjective` | cameraRoutine.mjs:231 | two numbers have the same decimal text exactly when they are equal |
| `JsText.SplitJoin` | cameraRoutine.mjs:229 | `split` loses nothing: joining the pieces gives the text back, and no piece holds the separator |
| `ZipExport.Find` | cameraRoutine.mjs:224 | `find` answers nothing exactly when no photo has the id; an answer is a listed photo with that id |
| `ZipExport.FindFirst` | cameraRoutine.mjs:224 | `find` answers the earliest photo with the id |
| `ZipExport.FindUnique` | cameraRoutine.mjs:224 | with unique ids, a photo's own id finds that photo |
| `ZipExport.Payload` | cameraRoutine.mjs:229 | `src.split(',')[1]` holds no comma and is shorter than `src` (when it is present is `PayloadMissing`, its value on a data URL `PayloadOfDataUrl`) |
| `ZipExport.PayloadOfDataUrl` | cameraRoutine.mjs:229 | the payload of `<header>,<base64>` is the base64 text |
| `ZipExport.PayloadMissing` | cameraRoutine.mjs:229 | the payload is `undefined` exactly when the source has no comma |
| `ZipExport.FotoName` | cameraRoutine.mjs:231 | the name is `foto_`, then the decimal text of the number, then `.png` (distinct numbers give distinct names: `FotoNameInjective`) |
| `ZipExport.FotoNameInjective` | cameraRoutine.mjs:231 | `foto_<a>.png` equals `foto_<b>.png` exactly when a equals b |
| `ZipExport.Matched` | cameraRoutine.mjs:222-226 | the matched checkbox indices are ascending, in range, each has a photo, and every checkbox with a photo is among them |
| `ZipExport.ZipEntries` | cameraRoutine.mjs:222-234 | the `forEach` yields at most one entry per checked box (entries one per matched box: `ZipEntriesByMatch`; the loop equals it: `BuildEntries`) |
| `ZipExport.ZipEntriesByMatch` | cameraRoutine.mjs:222-234 | one entry per matched checkbox in checkbox order; the entry for checkbox k is `foto_<k+1>.png` with the payload of the first photo with its id |
| `ZipExport.ZipEntriesCount` | cameraRoutine.mjs:222-234 | at most one entry per checked box, and exactly one per box if and only if every checked id has a photo |
| `ZipExport.AllMatchedEntries` | cameraRoutine.mjs:222-234 | when every checked id has a photo, the entries are `foto_1.png` … `foto_N.png` in checkbox order |
| `ZipExport.ZipNamesDistinct` | cameraRoutine.mjs:231-233 | no two entries share a file name, so no entry overwrites another |
| `ZipExport.BuildEntries` | cameraRoutine.mjs:222-234 | the `forEach` loop produces exactly the entries `ZipEntries` describes |
| `ZipExport.ExportSelection` | cameraRoutine.mjs:200-234 | a missing JSZip is reported first whatever is checked; with JSZip present, an empty selection is reported; otherwise the archive holds exactly the `ZipEntries` of the selection (at most one entry per checked box) |
| `ZipExport.CheckedIndices` | cameraRoutine.mjs:213 | the checked boxes in document order: ascending, in range, all checked, and every checked box included |
| `ZipExport.CheckedIds` | cameraRoutine.mjs:213 | the result is exactly the values of the ticked boxes, one per ticked box, in document order (`CheckedIndices`); it is non-empty exactly when some box is ticked |
| `ZipExport.ExportOfGallery` | cameraRoutine.mjs:213-234 | in a consistent state, checking N boxes yields exactly N entries named `foto_1.png` … `foto_N.png` |
| `ZipExport.ExportPicksCheckedPhotos` | cameraRoutine.mjs:213-234 | with unique ids, the j-th entry carries the payload of the j-th checked photo |
| `ZipExport.DuplicateIdExportsFirstPhoto` | cameraRoutine.mjs:224-233 | for any photos and checked ids: a checked box carrying an id yields `foto_<k+1>.png` with the payload of the earliest photo having that id, so when two photos share an id either box exports the first one |
| `CameraRoutine.Routine.constructor` | cameraRoutine.mjs:50-68 | the fields start as `Initial` describes, with the labels resolved from the configuration |
| `CameraRoutine.Routine.LigarCamera` | cameraRoutine.mjs:75-105 | updates the fields as `Ligar` does; the alert is shown exactly on an attempt that did not start playback |
| `CameraRoutine.Routine.DesligarCamera` | cameraRoutine.mjs:108-120 | updates the fields as `Desligar` does |
| `CameraRoutine.Routine.TirarFoto` | cameraRoutine.mjs:127-152 | updates the fields as `Capture` does (push onto `imagens`, one thumbnail) |
| `CameraRoutine.Routine.OnCameraClick` | cameraRoutine.mjs:260-269 | calls `LigarCamera` when the flag is off and `TirarFoto` when it is on, as `Click` describes |
| `CameraRoutine.Routine.LimparGaleria` | cameraRoutine.mjs:287-292 | updates the fields as `Limpar` does |
| `CameraRoutine.Routine.GetImagens` | cameraRoutine.mjs:281 | returns the photos element by element in capture order, in step with the gallery's ids |
| `CameraRoutine.Routine.IsCameraAtiva` | cameraRoutine.mjs:283 | answers exactly the active flag; a true answer implies a live stream is held and the guard is up |
| `CameraRoutine.Routine.BaixarZip` | cameraRoutine.mjs:200-234 | the outcome is `ExportSelection` of the ticked boxes' ids (document order) and the current photos |

## Left out

- Element lookup with `document.getElementById` and the setup `throw`
  (cameraRoutine.mjs:30-44). The constructor models the routine once every
  element was found.
- `getUserMedia`, `video.play()` and `track.stop()`. These are host media
  calls. Their outcome is the `Activation` parameter. Stopping the tracks sets
  the session's `stopped` flag.
- `canvas.getContext`, `drawImage` and `toDataURL`. These are host drawing
  calls. The encoded frame is a parameter (`Frame.dataUrl`). Only the size
  fallback is modelled.
- Thumbnail DOM construction and styling (cameraRoutine.mjs:159-193). The
  gallery is the sequence of checkbox values. Which boxes are ticked is a
  parameter of `BaixarZip`, one flag per thumbnail.
- JSZip compression, `generateAsync`, the Blob, `URL.createObjectURL`, the
  synthetic link click and `revokeObjectURL` (cameraRoutine.mjs:210,
  236-249). These are a foreign library and browser I/O. The model stops at
  the list of `zip.file` calls. What JSZip does with an `undefined` payload is
  not modelled.
- `alert` and `console` output. The two early exits of `baixarZip` are
  `ExportResult` cases. The activation alert is `LigarCamera`'s result.
- `Date.now()`, which is passed in as `Frame.now`. Timestamps are
  non-negative integers.
- Event-loop interleaving. Each handler is one atomic step. `ligarCamera`
  raises its guard before its first `await`, and the guard is never lowered.
  So a click that arrives while an activation is pending is a no-op either
  way. The model has no separate "pending" state.
- `CameraRoutine.Routine.GetImagens`: the copy `[...imagens]` is shallow.
  The `{id, src}` objects in it are shared with the routine's own list, so a
  caller that changes a returned photo's `src` or `id` changes what
  `baixarZip` later finds and exports. Photos are modelled as immutable
  values, so this sharing and its effects are not modelled.
- `JsText.DecimalString`: JavaScript prints a number as plain decimal digits
  only below 1e21, and integers are exact only up to 2^53. So this function,
  and the argument that the loose `==` on checkbox values is exact, hold only
  for ids and indices in that range. Ids are `Date.now()` values and file
  numbers are small, so both stay well inside it.
- The gallery element is assumed to be empty when the routine starts
  (`Initial` has `gallery == []`). The source never clears it at start-up
  (cameraRoutine.mjs:38-44), and `querySelectorAll` (cameraRoutine.mjs:213)
  would also collect checkboxes that the page had put there beforehand.
- JavaScript falsiness beyond what the code meets. The `||` defaults treat
  `undefined` and `""` as missing. Non-string label overrides, and a `NaN`
  video size, are not modelled.

=== FILE: camera_routine.dfy ===
/**
 * The controller built by `initCameraRoutine`: the closure variables become
 * fields, each handler a method that updates them in place. Every method is
 * specified against the matching function over `State`.
 */
module CameraRoutine {
  import opened Wrappers
  import opened CameraState
  import opened ZipExport

  class Routine {
    /** The resolved button labels (`textos`), fixed at construction. */
    const textos: Textos
    /** The photos taken so far, in capture order. */
    var imagens: seq<Photo>
    /** Whether the camera is on. */
    var cameraAtiva: bool
    /** The media stream handle; `None` is `null`. */
    var stream: Option<Session>
    /** The activation guard. */
    var ligandoCamera: bool
    /** The main button's `textContent`. */
    var buttonText: string
    /** Whether the video element's `srcObject` is the stream. */
    var videoAttached: bool
    /** The gallery's checkbox values, in document order. */
    var gallery: seq<nat>
    var canvasWidth: nat
    var canvasHeight: nat

    /** The fields as one value. */
    ghost function Snapshot(): State
      reads this
    {
      State(textos, imagens, cameraAtiva, stream, ligandoCamera, buttonText, videoAttached, gallery,
            canvasWidth, canvasHeight)
    }

    ghost predicate Valid()
      reads this
    {
      Inv(Snapshot())
    }

    /** `initCameraRoutine` once every element was found: labels resolved, button set to the "off" label. */
    constructor (config: Option<TextOverrides>, canvasWidth: nat, canvasHeight: nat)
      ensures Valid()
      ensures Snapshot() == Initial(config, canvasWidth, canvasHeight)
    {
      var t := ResolveTextos(config);
      textos := t;
      imagens := [];
      cameraAtiva := false;
      stream := None;
      ligandoCamera := false;
      buttonText := t.ligar;
      videoAttached := false;
      gallery := [];
      this.canvasWidth := canvasWidth;
      this.canvasHeight := canvasHeight;
    }

    /** `ligarCamera`; `alerted` tells whether the "camera error" alert was shown. */
    method LigarCamera(outcome: Activation) returns (alerted: bool)
      requires Valid()
      modifies this
      ensures Valid()
      ensures Snapshot() == Ligar(old(Snapshot()), outcome)
      ensures alerted <==> !old(ligandoCamera) && !old(cameraAtiva) && !outcome.Playing?
    {
      alerted := false;
      if ligandoCamera || cameraAtiva {
        return;
      }
      ligandoCamera := true;
      match outcome
      case Denied =>
        alerted := true;
      case PlayRejected(h) =>
        stream := Some(Session(h, false));
        videoAttached := true;
        alerted := true;
      case Playing(h) =>
        stream := Some(Session(h, false));
        videoAttached := true;
        cameraAtiva := true;
        buttonText := textos.fotografar;
    }

    /** `desligarCamera`. */
    method DesligarCamera()
      requires Valid()
      modifies this
      ensures Valid()
      ensures Snapshot() == Desligar(old(Snapshot()))
    {
      if stream.Some? {
        stream := Some(stream.value.(stopped := true));
      }
      videoAttached := false;
      cameraAtiva := false;
      buttonText := textos.ligar;
    }

    /** `tirarFoto`, with the thumbnail reduced to the id its checkbox carries. */
    method TirarFoto(frame: Frame)
      requires Valid()
      modifies this
      ensures Valid()
      ensures Snapshot() == Capture(old(Snapshot()), frame)
    {
      canvasWidth := CanvasDim(frame.videoWidth);
      canvasHeight := CanvasDim(frame.videoHeight);
      var foto := Photo(frame.now, frame.dataUrl);
      imagens := imagens + [foto];
      gallery := gallery + [foto.id];
    }

    /** The main button's click listener. */
    method OnCameraClick(outcome: Activation, frame: Frame)
      requires Valid()
      modifies this
      ensures Valid()
      ensures Snapshot() == Click(old(Snapshot()), outcome, frame)
    {
      if !cameraAtiva {
        var _ := LigarCamera(outcome);
      } else {
        TirarFoto(frame);
      }
    }

    /** `limparGaleria`. */
    method LimparGaleria()
      requires Valid()
      modifies this
      ensures Valid()
      ensures Snapshot() == Limpar(old(Snapshot()))
    {
      imagens := [];
      gallery := [];
    }

    /**
     * `getImagens`: the photos, in capture order. The returned list is a
     * separate value, so adding or removing elements does not reach the
     * routine's list; the photo records themselves are modelled as values.
     */
    method GetImagens() returns (copia: seq<Photo>)
      requires Valid()
      ensures |copia| == |imagens| && forall i :: 0 <= i < |copia| ==> copia[i] == imagens[i]
      ensures |copia| == |gallery| && forall i :: 0 <= i < |copia| ==> copia[i].id == gallery[i]
    {
      copia := imagens[..];
    }

    /** `isCameraAtiva`. */
    function IsCameraAtiva(): (ativa: bool)
      reads this
      requires Valid()
      ensures ativa == cameraAtiva
      ensures ativa ==> stream.Some? && !stream.value.stopped && ligandoCamera
    {
      cameraAtiva
    }

    /**
     * The download button's listener up to `generateAsync`; `checks[i]` is
     * whether the i-th thumbnail's box is ticked.
     */
    method BaixarZip(jsZipLoaded: bool, checks: seq<bool>) returns (r: ExportResult)
      requires Valid() && |checks| == |gallery|
      ensures r == ExportSelection(jsZipLoaded, CheckedIds(gallery, checks), imagens)
    {
      if !jsZipLoaded {
        return JSZipMissing;
      }
      var selecionadas := CheckedIds(gallery, checks);
      if |selecionadas| == 0 {
        return NothingSelected;
      }
      var entries := BuildEntries(selecionadas, imagens);
      r := Archive(entries);
    }
  }
}

=== FILE: camera_state.dfy ===
/**
 * The state kept by `initCameraRoutine` and what each of its handlers does to
 * it, as functions from the state before a handler to the state after it.
 * Host results (whether the camera could be opened, the video's size, the
 * clock, the encoded frame) are inputs. Every handler runs as one atomic step.
 */
module CameraState {
  import opened Wrappers

  /** Default buttonText of the main button while the camera is off. */
  const DefaultLigar: string := "📷 Ligar Câmera"
  /** Default buttonText of the main button while the camera is on. */
  const DefaultFotografar: string := "📸 Tirar Foto"
  /** Canvas width/height used when the video reports no size. */
  const FallbackDim: nat := 300

  /** `config.textos`: both overrides are optional. */
  datatype TextOverrides = TextOverrides(ligar: Option<string>, fotografar: Option<string>)

  /** The resolved labels of the main button. */
  datatype Textos = Textos(ligar: string, fotografar: string)

  /** A captured photo: its timestamp id and its data URL. */
  datatype Photo = Photo(id: nat, src: string)

  /** The media stream handle, identified by the host, and whether its tracks were stopped. */
  datatype Session = Session(handle: nat, stopped: bool)

  /**
   * How the host answers an activation: `getUserMedia` rejected; it resolved
   * with a stream but `video.play()` rejected; or both resolved.
   */
  datatype Activation = Denied | PlayRejected(stream: nat) | Playing(stream: nat)

  /** What the host reports when a frame is captured. */
  datatype Frame = Frame(videoWidth: Option<nat>, videoHeight: Option<nat>, now: nat, dataUrl: string)

  /**
   * Everything the handlers read or write: the labels, the four closure
   * variables, the main button's text, whether the video element shows the
   * stream (`srcObject`), the gallery's checkbox values in document order and
   * the canvas size.
   */
  datatype State = State(
    textos: Textos,
    imagens: seq<Photo>,
    cameraAtiva: bool,
    stream: Option<Session>,
    ligandoCamera: bool,
    buttonText: string,
    videoAttached: bool,
    gallery: seq<nat>,
    canvasWidth: nat,
    canvasHeight: nat)

  /** JavaScript's `value || fallback` on an optional string: `undefined` and `""` fall back. */
  function OrElse(v: Option<string>, fallback: string): (r: string)
    ensures r == fallback || (v.Some? && r == v.value)
    ensures r == "" ==> fallback == ""
  {
    if v.Some? && v.value != "" then v.value else fallback
  }

  /** The `textos` object built from the optional `config.textos`. */
  function ResolveTextos(config: Option<TextOverrides>): (t: Textos)
    ensures t.ligar != "" && t.fotografar != ""
    ensures config.Some? && config.value.ligar.Some? && config.value.ligar.value != "" ==>
              t.ligar == config.value.ligar.value
    ensures config.None? || config.value.ligar.None? || config.value.ligar.value == "" ==>
              t.ligar == DefaultLigar
    ensures config.Some? && config.value.fotografar.Some? && config.value.fotografar.value != "" ==>
              t.fotografar == config.value.fotografar.value
    ensures config.None? || config.value.fotografar.None? || config.value.fotografar.value == "" ==>
              t.fotografar == DefaultFotografar
  {
    match config
    case None => Textos(DefaultLigar, DefaultFotografar)
    case Some(o) => Textos(OrElse(o.ligar, DefaultLigar), OrElse(o.fotografar, DefaultFotografar))
  }

  /** `videoElement.videoWidth || 300` (and the same for the height). */
  function CanvasDim(reported: Option<nat>): (d: nat)
    ensures d > 0
    ensures reported.Some? && reported.value > 0 ==> d == reported.value
    ensures reported.None? || reported.value == 0 ==> d == FallbackDim
  {
    if reported.Some? && reported.value != 0 then reported.value else FallbackDim
  }

  /** The buttonText that goes with a value of the active flag. */
  function LabelFor(t: Textos, ativa: bool): string
  {
    if ativa then t.fotografar else t.ligar
  }

  /** The gallery holds one checkbox per photo, carrying that photo's id, in the same order. */
  predicate GalleryMirrors(gallery: seq<nat>, imagens: seq<Photo>)
  {
    |gallery| == |imagens| && forall i :: 0 <= i < |gallery| ==> gallery[i] == imagens[i].id
  }

  /**
   * What every handler keeps true: the gallery mirrors the photos, the buttonText
   * matches the active flag, nothing is opened before the first activation,
   * and an active camera has a live stream shown in the video element.
   */
  predicate Inv(s: State)
  {
    && GalleryMirrors(s.gallery, s.imagens)
    && s.buttonText == LabelFor(s.textos, s.cameraAtiva)
    && (!s.ligandoCamera ==> s.stream.None? && !s.videoAttached && !s.cameraAtiva)
    && (s.cameraAtiva ==> s.videoAttached)
    && (s.videoAttached ==> s.stream.Some? && !s.stream.value.stopped)
  }

  /** The state right after `initCameraRoutine` returns. */
  function Initial(config: Option<TextOverrides>, canvasWidth: nat, canvasHeight: nat): (s: State)
    ensures Inv(s)
    ensures s.imagens == [] && s.gallery == [] && !s.cameraAtiva && !s.ligandoCamera && s.stream.None?
    ensures s.buttonText == s.textos.ligar && s.buttonText != ""
    ensures s.textos == ResolveTextos(config)
    ensures s.canvasWidth == canvasWidth && s.canvasHeight == canvasHeight
  {
    var t := ResolveTextos(config);
    State(t, [], false, None, false, t.ligar, false, [], canvasWidth, canvasHeight)
  }

  /**
   * `ligarCamera`: a no-op once an attempt has started or while active;
   * otherwise the guard is raised (and never lowered again), and the outcome
   * decides how far the activation got.
   */
  function Ligar(s: State, outcome: Activation): (t: State)
    ensures Inv(s) ==> Inv(t)
    ensures t.imagens == s.imagens && t.gallery == s.gallery && t.textos == s.textos
    ensures t.canvasWidth == s.canvasWidth && t.canvasHeight == s.canvasHeight
    ensures s.ligandoCamera || s.cameraAtiva ==> t == s
    ensures !s.ligandoCamera && !s.cameraAtiva ==> t.ligandoCamera
    ensures !s.ligandoCamera && !s.cameraAtiva ==>
              (t.cameraAtiva <==> outcome.Playing?) && (t.cameraAtiva ==> t.buttonText == s.textos.fotografar)
    ensures !s.ligandoCamera && !s.cameraAtiva && outcome.PlayRejected? ==>
              t.stream == Some(Session(outcome.stream, false)) && !t.cameraAtiva &&
              t.videoAttached && t.buttonText == s.buttonText
    ensures !s.ligandoCamera && !s.cameraAtiva && outcome.Denied? ==>
              t.stream == s.stream && t.videoAttached == s.videoAttached && t.buttonText == s.buttonText
    ensures !s.ligandoCamera && !s.cameraAtiva && outcome.Playing? ==>
              t.stream == Some(Session(outcome.stream, false)) && t.videoAttached
  {
    if s.ligandoCamera || s.cameraAtiva then s
    else
      match outcome
      case Denied => s.(ligandoCamera := true)
      case PlayRejected(h) =>
        s.(ligandoCamera := true, stream := Some(Session(h, false)), videoAttached := true)
      case Playing(h) =>
        s.(ligandoCamera := true, stream := Some(Session(h, false)), videoAttached := true,
           cameraAtiva := true, buttonText := s.textos.fotografar)
  }

  /** Stopping every track of the stream, if there is one; the handle itself stays. */
  function StopTracks(stream: Option<Session>): (r: Option<Session>)
    ensures r.Some? <==> stream.Some?
    ensures r.Some? ==> r.value.handle == stream.value.handle && r.value.stopped
  {
    match stream
    case None => None
    case Some(session) => Some(session.(stopped := true))
  }

  /** `desligarCamera`: callable in any state; the `stream` variable is not cleared. */
  function Desligar(s: State): (t: State)
    ensures Inv(s) ==> Inv(t)
    ensures !t.cameraAtiva && !t.videoAttached && t.buttonText == s.textos.ligar
    ensures t.imagens == s.imagens && t.gallery == s.gallery && t.ligandoCamera == s.ligandoCamera
    ensures t.stream.Some? <==> s.stream.Some?
    ensures t.stream.Some? ==> t.stream.value == Session(s.stream.value.handle, true)
    ensures t.textos == s.textos && t.canvasWidth == s.canvasWidth && t.canvasHeight == s.canvasHeight
  {
    s.(stream := StopTracks(s.stream), videoAttached := false, cameraAtiva := false, buttonText := s.textos.ligar)
  }

  /** `tirarFoto`: size the canvas, then append one photo and one thumbnail. */
  function Capture(s: State, frame: Frame): (t: State)
    ensures Inv(s) ==> Inv(t)
    ensures |t.imagens| == |s.imagens| + 1 && t.imagens[..|s.imagens|] == s.imagens
    ensures t.imagens[|s.imagens|] == Photo(frame.now, frame.dataUrl)
    ensures |t.gallery| == |s.gallery| + 1 && t.gallery[..|s.gallery|] == s.gallery
    ensures t.gallery[|s.gallery|] == frame.now
    ensures t.canvasWidth == CanvasDim(frame.videoWidth) && t.canvasHeight == CanvasDim(frame.videoHeight)
    ensures t.canvasWidth > 0 && t.canvasHeight > 0
    ensures t.cameraAtiva == s.cameraAtiva && t.ligandoCamera == s.ligandoCamera && t.stream == s.stream
    ensures t.textos == s.textos && t.videoAttached == s.videoAttached && t.buttonText == s.buttonText
  {
    var foto := Photo(frame.now, frame.dataUrl);
    s.(canvasWidth := CanvasDim(frame.videoWidth), canvasHeight := CanvasDim(frame.videoHeight),
       imagens := s.imagens + [foto], gallery := s.gallery + [foto.id])
  }

  /** The main button's click handler: the active flag picks the action. */
  function Click(s: State, outcome: Activation, frame: Frame): (t: State)
    ensures Inv(s) ==> Inv(t)
  {
    if !s.cameraAtiva then Ligar(s, outcome) else Capture(s, frame)
  }

  /** `limparGaleria`: empty the photo list and the gallery together. */
  function Limpar(s: State): (t: State)
    ensures Inv(s) ==> Inv(t)
    ensures t.imagens == [] && t.gallery == []
    ensures t.cameraAtiva == s.cameraAtiva && t.ligandoCamera == s.ligandoCamera && t.stream == s.stream
    ensures t.buttonText == s.buttonText
    ensures t.textos == s.textos && t.videoAttached == s.videoAttached
    ensures t.canvasWidth == s.canvasWidth && t.canvasHeight == s.canvasHeight
  {
    s.(imagens := [], gallery := [])
  }

  /** The events that change the state: a click on the main button, and the two public commands. */
  datatype Event = ClickCamera(outcome: Activation, frame: Frame) | Shutdown | Clear

  function Step(s: State, e: Event): (t: State)
    ensures Inv(s) ==> Inv(t)
  {
    match e
    case ClickCamera(outcome, frame) => Click(s, outcome, frame)
    case Shutdown => Desligar(s)
    case Clear => Limpar(s)
  }

  function Run(s: State, events: seq<Event>): State
    decreases |events|
  {
    if |events| == 0 then s else Run(Step(s, events[0]), events[1..])
  }

  /** Every sequence of events keeps the invariant. */
  lemma {:induction false} RunKeepsInv(s: State, events: seq<Event>)
    requires Inv(s)
    ensures Inv(Run(s, events))
    decreases |events|
  {
    if |events| > 0 {
      RunKeepsInv(Step(s, events[0]), events[1..]);
    }
  }

  /** A click takes a photo exactly when the camera is active, and otherwise attempts activation. */
  lemma ClickDispatch(s: State, outcome: Activation, frame: Frame)
    ensures var t := Click(s, outcome, frame);
      (|t.imagens| == |s.imagens| + 1 <==> s.cameraAtiva) &&
      (!s.cameraAtiva ==> t.ligandoCamera && t.imagens == s.imagens)
  {
  }

  /**
   * While the two labels differ, the button text shows the flag; the click handler
   * still reads the flag, which is what decides when both labels are equal.
   */
  lemma LabelShowsFlag(s: State)
    requires Inv(s) && s.textos.ligar != s.textos.fotografar
    ensures s.buttonText == s.textos.fotografar <==> s.cameraAtiva
  {
  }

  /** Once raised, the activation guard stays raised whatever happens next. */
  lemma {:induction false} GuardNeverReleased(s: State, events: seq<Event>)
    requires s.ligandoCamera
    ensures Run(s, events).ligandoCamera
    decreases |events|
  {
    if |events| > 0 {
      GuardNeverReleased(Step(s, events[0]), events[1..]);
    }
  }

  /**
   * After the first activation attempt, whatever its outcome and whatever
   * happens next, every later `ligarCamera` changes nothing.
   */
  lemma LigarOnlyOnce(s: State, first: Activation, events: seq<Event>, later: Activation)
    requires !s.ligandoCamera && !s.cameraAtiva
    ensures var u := Run(Ligar(s, first), events); Ligar(u, later) == u
  {
    GuardNeverReleased(Ligar(s, first), events);
  }

  /**
   * After an activation attempt that left the camera off (a failure, or a
   * later `desligarCamera`), the camera never comes on again, no photo is
   * taken, and the stream handle never changes.
   */
  lemma {:induction false} NoActivationAfterFirstAttempt(s: State, events: seq<Event>)
    requires s.ligandoCamera && !s.cameraAtiva
    ensures var t := Run(s, events);
      && !t.cameraAtiva
      && (t.imagens == s.imagens || t.imagens == [])
      && (t.stream.Some? <==> s.stream.Some?)
      && (t.stream.Some? ==> t.stream.value.handle == s.stream.value.handle)
    decreases |events|
  {
    if |events| > 0 {
      var u := Step(s, events[0]);
      NoActivationAfterFirstAttempt(u, events[1..]);
      if u.imagens == [] {
        NoActivationFromEmpty(u, events[1..]);
      }
    }
  }

  /** Helper for the above: once the camera is stuck off, an empty photo list stays empty. */
  lemma {:induction false} NoActivationFromEmpty(s: State, events: seq<Event>)
    requires s.ligandoCamera && !s.cameraAtiva && s.imagens == []
    ensures Run(s, events).imagens == []
    decreases |events|
  {
    if |events| > 0 {
      NoActivationFromEmpty(Step(s, events[0]), events[1..]);
    }
  }

  /** At most one stream is ever requested: once a handle is held, every later state holds the same one. */
  lemma {:induction false} SessionHandleFixed(s: State, events: seq<Event>)
    requires Inv(s) && s.stream.Some?
    ensures Run(s, events).stream.Some? && Run(s, events).stream.value.handle == s.stream.value.handle
    decreases |events|
  {
    if |events| > 0 {
      var u := Step(s, events[0]);
      assert s.ligandoCamera;
      SessionHandleFixed(u, events[1..]);
    }
  }

  /** `desligarCamera` twice is the same as once. */
  lemma DesligarIdempotent(s: State)
    ensures Desligar(Desligar(s)) == Desligar(s)
  {
  }

  /**
   * `desligarCamera` changes nothing exactly when the camera is off, the video
   * shows no stream, any stream is already stopped and the buttonText is the
   * "off" buttonText.
   */
  lemma DesligarFixedPoint(s: State)
    ensures Desligar(s) == s <==>
      !s.cameraAtiva && !s.videoAttached && s.buttonText == s.textos.ligar && (s.stream.None? || s.stream.value.stopped)
  {
  }

  /**
   * When `play()` fails after the stream was obtained, the camera is off but
   * the stream is held and shown; a later `desligarCamera` on this inactive
   * state still changes it (it stops the tracks).
   */
  lemma PlayRejectedKeepsStream(s: State, h: nat)
    requires Inv(s) && !s.ligandoCamera
    ensures var t := Ligar(s, PlayRejected(h));
      t.stream.Some? && !t.cameraAtiva && t.videoAttached && Desligar(t) != t
  {
  }
}

=== FILE: js_text.dfy ===
/**
 * The two JavaScript string built-ins the camera routine relies on:
 * converting a non-negative integer to its decimal text (`String(n)`, template
 * literals) and back (`Number(s)`, used by the loose `==` between a photo id and
 * a checkbox value), and `String.prototype.split` with a one-character separator.
 */
module JsText {

  /** The decimal digit character for `d`. */
  function DigitChar(d: nat): (c: char)
    requires d < 10
    ensures '0' <= c <= '9' && c as int - '0' as int == d
  {
    (48 + d) as char
  }

  /** `String(n)` for a non-negative integer: its decimal digits, most significant first. */
  function DecimalString(n: nat): (r: string)
    ensures |r| >= 1
    ensures forall i :: 0 <= i < |r| ==> '0' <= r[i] <= '9'
    ensures r[0] == '0' ==> n == 0
    decreases n
  {
    if n < 10 then [DigitChar(n)] else DecimalString(n / 10) + [DigitChar(n % 10)]
  }

  /** `Number(s)` for a string of decimal digits (the empty string reads as 0, as in JavaScript). */
  function ParseDecimal(s: string): int
    decreases |s|
  {
    if |s| == 0 then 0 else ParseDecimal(s[..|s| - 1]) * 10 + (s[|s| - 1] as int - '0' as int)
  }

  /** Reading back the decimal text of `n` gives `n`. */
  lemma {:induction false} DecimalRoundTrip(n: nat)
    ensures ParseDecimal(DecimalString(n)) == n
    decreases n
  {
    var s := DecimalString(n);
    if n < 10 {
      assert s[..|s| - 1] == [];
    } else {
      DecimalRoundTrip(n / 10);
      assert s[..|s| - 1] == DecimalString(n / 10);
    }
  }

  /** Two numbers have the same decimal text only if they are equal. */
  lemma DecimalInjective(a: nat, b: nat)
    ensures DecimalString(a) == DecimalString(b) <==> a == b
  {
    DecimalRoundTrip(a);
    DecimalRoundTrip(b);
  }

  /** `s.split(sep)`: the maximal separator-free pieces of `s`, in order; never empty. */
  function Split(s: string, sep: char): (parts: seq<string>)
    ensures |parts| >= 1
    decreases |s|
  {
    if |s| == 0 then [""]
    else
      var rest := Split(s[1..], sep);
      if s[0] == sep then [""] + rest else [[s[0]] + rest[0]] + rest[1..]
  }

  /** `parts.join(sep)`. */
  function Join(parts: seq<string>, sep: char): string
    decreases |parts|
  {
    if |parts| == 0 then ""
    else if |parts| == 1 then parts[0]
    else parts[0] + [sep] + Join(parts[1..], sep)
  }

  /** Splitting loses nothing: joining the pieces back gives the original text, and no piece holds the separator. */
  lemma {:induction false} SplitJoin(s: string, sep: char)
    ensures Join(Split(s, sep), sep) == s
    ensures forall i :: 0 <= i < |Split(s, sep)| ==> sep !in Split(s, sep)[i]
    decreases |s|
  {
    if |s| > 0 {
      var rest := Split(s[1..], sep);
      SplitJoin(s[1..], sep);
      if s[0] == sep {
        assert s == [sep] + s[1..];
      } else {
        var parts := Split(s, sep);
        assert parts == [[s[0]] + rest[0]] + rest[1..];
        if |rest| == 1 {
          assert Join(parts, sep) == [s[0]] + rest[0];
        } else {
          assert Join(rest, sep) == rest[0] + [sep] + Join(rest[1..], sep);
          assert parts[1..] == rest[1..];
        }
        assert s == [s[0]] + s[1..];
      }
    }
  }

  /** A separator-free prefix is glued to the first piece of what follows it. */
  lemma {:induction false} SplitFreePrefix(p: string, rest: string, sep: char)
    requires sep !in p
    ensures Split(p + rest, sep) == [p + Split(rest, sep)[0]] + Split(rest, sep)[1..]
    decreases |p|
  {
    if |p| > 0 {
      assert (p + rest)[1..] == p[1..] + rest;
      SplitFreePrefix(p[1..], rest, sep);
      assert [p[0]] + (p[1..] + Split(rest, sep)[0]) == p + Split(rest, sep)[0];
    } else {
      var r := Split(rest, sep);
      assert p + rest == rest && p + r[0] == r[0];
      assert [r[0]] + r[1..] == r;
    }
  }

  /** A string with no separator in it splits into itself alone. */
  lemma SplitWithoutSeparator(s: string, sep: char)
    requires sep !in s
    ensures Split(s, sep) == [s]
  {
    SplitFreePrefix(s, "", sep);
    assert s + "" == s;
  }
}

=== FILE: wrappers.dfy ===
/** Optional values: JavaScript's `undefined`/`null` versus a present value. */
module Wrappers {

  datatype Option<+T> = None | Some(value: T)
}

=== FILE: zip_export.dfy ===
/**
 * The archive part of `baixarZip`: which checked thumbnails become files,
 * under which names, with which base64 payload. Building and downloading the
 * archive itself is left to the host.
 */
module ZipExport {
  import opened Wrappers
  import opened JsText
  import opened CameraState

  /** One `zip.file(name, data, {base64: true})` call; `data` is `None` where the code passes `undefined`. */
  datatype Entry = Entry(name: string, data: Option<string>)

  /** How `baixarZip` ends: the two early exits (each with an alert), or the archive's entries. */
  datatype ExportResult = JSZipMissing | NothingSelected | Archive(entries: seq<Entry>)

  /** `imagens.find(f => f.id == id)`: the first photo with that id, if any. */
  function Find(imagens: seq<Photo>, id: nat): (r: Option<Photo>)
    ensures r.None? <==> forall i :: 0 <= i < |imagens| ==> imagens[i].id != id
    ensures r.Some? ==> r.value in imagens && r.value.id == id
    decreases |imagens|
  {
    if |imagens| == 0 then None
    else if imagens[0].id == id then Some(imagens[0])
    else Find(imagens[1..], id)
  }

  /** `find` returns the earliest photo carrying the id. */
  lemma {:induction false} FindFirst(imagens: seq<Photo>, i: nat)
    requires i < |imagens|
    requires forall j :: 0 <= j < i ==> imagens[j].id != imagens[i].id
    ensures Find(imagens, imagens[i].id) == Some(imagens[i])
    decreases i
  {
    if i > 0 {
      FindFirst(imagens[1..], i - 1);
    }
  }

  /** No two photos share an id (two captures in the same millisecond would break it). */
  predicate UniqueIds(imagens: seq<Photo>)
  {
    forall i, j :: 0 <= i < j < |imagens| ==> imagens[i].id != imagens[j].id
  }

  /** With unique ids, looking a photo's id up finds that very photo. */
  lemma FindUnique(imagens: seq<Photo>, i: nat)
    requires UniqueIds(imagens) && i < |imagens|
    ensures Find(imagens, imagens[i].id) == Some(imagens[i])
  {
    FindFirst(imagens, i);
  }

  /** `foto.src.split(',')[1]`: the text between the first comma and the next one (or the end). */
  function Payload(src: string): (r: Option<string>)
    ensures r.Some? ==> ',' !in r.value && |r.value| < |src|
  {
    SplitJoin(src, ',');
    var parts := Split(src, ',');
    if |parts| >= 2 then Some(parts[1]) else None
  }

  /** For a data URL `<header>,<base64>` (commas appear in neither part) the payload is the base64 text. */
  lemma PayloadOfDataUrl(header: string, body: string, rest: string)
    requires ',' !in header && ',' !in body
    requires rest == "" || rest[0] == ','
    ensures Payload(header + [','] + body + rest) == Some(body)
  {
    var src := header + [','] + body + rest;
    assert src == header + ([','] + body + rest);
    SplitFreePrefix(header, [','] + body + rest, ',');
    assert ([','] + body + rest)[1..] == body + rest;
    SplitFreePrefix(body, rest, ',');
    var tail := Split(rest, ',');
    if rest == "" {
      assert tail == [""];
      assert body + tail[0] == body;
    } else {
      assert rest == [','] + rest[1..];
      assert tail[0] == "";
      assert body + tail[0] == body;
    }
    assert Split(body + rest, ',')[0] == body;
  }

  /** The payload is `undefined` exactly when the source holds no comma. */
  lemma PayloadMissing(src: string)
    ensures Payload(src).None? <==> ',' !in src
  {
    if ',' !in src {
      SplitWithoutSeparator(src, ',');
    } else {
      var i :| 0 <= i < |src| && src[i] == ',';
      var k := FirstComma(src, i);
      assert src == src[..k] + [','] + src[k + 1..];
      SplitFreePrefix(src[..k], src[k..], ',');
      assert src[..k] + src[k..] == src;
      assert src[k..] == [','] + src[k + 1..];
    }
  }

  /** The position of the first comma, given that there is one at or before `i`. */
  lemma FirstComma(s: string, i: nat) returns (k: nat)
    requires i < |s| && s[i] == ','
    ensures k <= i && s[k] == ',' && ',' !in s[..k]
  {
    k := 0;
    while s[k] != ','
      invariant k <= i && ',' !in s[..k]
      decreases i - k
    {
      k := k + 1;
    }
  }

  /** `foto_${index + 1}.png`, given the 1-based number. */
  function FotoName(n: nat): (name: string)
    ensures |name| == |DecimalString(n)| + 9
    ensures name[..5] == "foto_" && name[|name| - 4..] == ".png" && name[5..|name| - 4] == DecimalString(n)
  {
    "foto_" + DecimalString(n) + ".png"
  }

  /** Different numbers give different file names, so no entry overwrites another in the archive. */
  lemma FotoNameInjective(a: nat, b: nat)
    ensures FotoName(a) == FotoName(b) <==> a == b
  {
    if FotoName(a) == FotoName(b) {
      var x := FotoName(a);
      assert DecimalString(a) == x[5..|x| - 4];
      assert DecimalString(b) == x[5..|x| - 4];
      DecimalInjective(a, b);
    }
  }

  /** The entry that checkbox number `k` (0-based) yields when its id has a photo. */
  function EntryAt(selecionadas: seq<nat>, imagens: seq<Photo>, k: nat): Entry
    requires k < |selecionadas| && Find(imagens, selecionadas[k]).Some?
  {
    Entry(FotoName(k + 1), Payload(Find(imagens, selecionadas[k]).value.src))
  }

  /** The checkbox indices whose id has a photo, ascending. */
  function Matched(selecionadas: seq<nat>, imagens: seq<Photo>): (ks: seq<nat>)
    ensures |ks| <= |selecionadas|
    ensures forall j :: 0 <= j < |ks| ==> ks[j] < |selecionadas| && Find(imagens, selecionadas[ks[j]]).Some?
    ensures forall i, j :: 0 <= i < j < |ks| ==> ks[i] < ks[j]
    ensures forall k :: 0 <= k < |selecionadas| && Find(imagens, selecionadas[k]).Some? ==> k in ks
    decreases |selecionadas|
  {
    if |selecionadas| == 0 then []
    else
      var k := |selecionadas| - 1;
      var prefix := selecionadas[..k];
      assert forall i :: 0 <= i < k ==> prefix[i] == selecionadas[i];
      Matched(prefix, imagens) + (if Find(imagens, selecionadas[k]).Some? then [k] else [])
  }

  /** The `forEach` over the checked boxes, as a function of the list seen so far. */
  function ZipEntries(selecionadas: seq<nat>, imagens: seq<Photo>): (es: seq<Entry>)
    ensures |es| <= |selecionadas|
    decreases |selecionadas|
  {
    if |selecionadas| == 0 then []
    else
      var k := |selecionadas| - 1;
      ZipEntries(selecionadas[..k], imagens) +
        match Find(imagens, selecionadas[k])
        case None => []
        case Some(foto) => [Entry(FotoName(k + 1), Payload(foto.src))]
  }

  /**
   * The entries are exactly one per matched checkbox, in checkbox order: the
   * j-th entry comes from the j-th matched index.
   */
  lemma {:induction false} ZipEntriesByMatch(selecionadas: seq<nat>, imagens: seq<Photo>)
    ensures var es, ks := ZipEntries(selecionadas, imagens), Matched(selecionadas, imagens);
      |es| == |ks| && forall j :: 0 <= j < |es| ==> es[j] == EntryAt(selecionadas, imagens, ks[j])
    decreases |selecionadas|
  {
    if |selecionadas| > 0 {
      var k := |selecionadas| - 1;
      var prefix := selecionadas[..k];
      ZipEntriesByMatch(prefix, imagens);
      var ks := Matched(prefix, imagens);
      forall j | 0 <= j < |ks|
        ensures EntryAt(prefix, imagens, ks[j]) == EntryAt(selecionadas, imagens, ks[j])
      {
        assert prefix[ks[j]] == selecionadas[ks[j]];
      }
    }
  }

  /** At most one entry per checked box, and exactly one each when every id has a photo. */
  lemma {:induction false} ZipEntriesCount(selecionadas: seq<nat>, imagens: seq<Photo>)
    ensures |ZipEntries(selecionadas, imagens)| <= |selecionadas|
    ensures |ZipEntries(selecionadas, imagens)| == |selecionadas| <==>
              forall k :: 0 <= k < |selecionadas| ==> Find(imagens, selecionadas[k]).Some?
    decreases |selecionadas|
  {
    if |selecionadas| > 0 {
      var k := |selecionadas| - 1;
      var prefix := selecionadas[..k];
      ZipEntriesCount(prefix, imagens);
      assert forall i :: 0 <= i < k ==> prefix[i] == selecionadas[i];
    }
  }

  /** When every checked id has a photo, the files are `foto_1.png` … `foto_N.png` in checkbox order. */
  lemma AllMatchedEntries(selecionadas: seq<nat>, imagens: seq<Photo>)
    requires forall k :: 0 <= k < |selecionadas| ==> Find(imagens, selecionadas[k]).Some?
    ensures var es := ZipEntries(selecionadas, imagens);
      |es| == |selecionadas| &&
      forall k :: 0 <= k < |es| ==> es[k] == EntryAt(selecionadas, imagens, k)
  {
    ZipEntriesByMatch(selecionadas, imagens);
    ZipEntriesCount(selecionadas, imagens);
    var ks := Matched(selecionadas, imagens);
    AscendingIsIdentity(ks, |selecionadas|);
  }

  /** An ascending list of `n` indices below `n` is `0, 1, …, n - 1`. */
  lemma {:induction false} AscendingIsIdentity(ks: seq<nat>, n: nat)
    requires |ks| == n
    requires forall j :: 0 <= j < |ks| ==> ks[j] < n
    requires forall i, j :: 0 <= i < j < |ks| ==> ks[i] < ks[j]
    ensures forall j :: 0 <= j < |ks| ==> ks[j] == j
  {
    forall j | 0 <= j < |ks| ensures ks[j] == j {
      AscendingBounds(ks, n, j);
    }
  }

  lemma {:induction false} AscendingBounds(ks: seq<nat>, n: nat, j: nat)
    requires |ks| == n && j < n
    requires forall i :: 0 <= i < |ks| ==> ks[i] < n
    requires forall a, b :: 0 <= a < b < |ks| ==> ks[a] < ks[b]
    ensures j <= ks[j] && ks[j] <= j
    decreases j
  {
    if j > 0 {
      AscendingBounds(ks, n, j - 1);
    }
    AscendingTail(ks, n, j);
  }

  lemma {:induction false} AscendingTail(ks: seq<nat>, n: nat, j: nat)
    requires |ks| == n && j < n
    requires forall i :: 0 <= i < |ks| ==> ks[i] < n
    requires forall a, b :: 0 <= a < b < |ks| ==> ks[a] < ks[b]
    ensures ks[j] + (n - 1 - j) <= n - 1
    decreases n - j
  {
    if j < n - 1 {
      AscendingTail(ks, n, j + 1);
    }
  }

  /** No two entries share a file name: the archive keeps every matched photo. */
  lemma ZipNamesDistinct(selecionadas: seq<nat>, imagens: seq<Photo>, i: nat, j: nat)
    requires i < j < |ZipEntries(selecionadas, imagens)|
    ensures ZipEntries(selecionadas, imagens)[i].name != ZipEntries(selecionadas, imagens)[j].name
  {
    ZipEntriesByMatch(selecionadas, imagens);
    var ks := Matched(selecionadas, imagens);
    FotoNameInjective(ks[i] + 1, ks[j] + 1);
  }

  /** The `forEach` loop of `baixarZip`, adding one file per matched checkbox. */
  method BuildEntries(selecionadas: seq<nat>, imagens: seq<Photo>) returns (entries: seq<Entry>)
    ensures entries == ZipEntries(selecionadas, imagens)
  {
    entries := [];
    var index := 0;
    while index < |selecionadas|
      invariant 0 <= index <= |selecionadas|
      invariant entries == ZipEntries(selecionadas[..index], imagens)
    {
      var foto := Find(imagens, selecionadas[index]);
      assert selecionadas[..index + 1][..index] == selecionadas[..index];
      if foto.Some? {
        entries := entries + [Entry(FotoName(index + 1), Payload(foto.value.src))];
      }
      index := index + 1;
    }
    assert selecionadas[..index] == selecionadas;
  }

  /** `baixarZip` up to `generateAsync`: the JSZip check comes first, then the empty selection. */
  function ExportSelection(jsZipLoaded: bool, selecionadas: seq<nat>, imagens: seq<Photo>): (r: ExportResult)
    ensures !jsZipLoaded <==> r == JSZipMissing
    ensures jsZipLoaded && selecionadas == [] <==> r == NothingSelected
    ensures r.Archive? ==> r.entries == ZipEntries(selecionadas, imagens)
    ensures r.Archive? ==> |r.entries| <= |selecionadas|
  {
    if !jsZipLoaded then JSZipMissing
    else if |selecionadas| == 0 then NothingSelected
    else
      ZipEntriesCount(selecionadas, imagens);
      Archive(ZipEntries(selecionadas, imagens))
  }

  /** The indices of the checked boxes, in document order. */
  function CheckedIndices(checks: seq<bool>): (ks: seq<nat>)
    ensures |ks| <= |checks|
    ensures forall j :: 0 <= j < |ks| ==> ks[j] < |checks| && checks[ks[j]]
    ensures forall i, j :: 0 <= i < j < |ks| ==> ks[i] < ks[j]
    ensures forall k :: 0 <= k < |checks| && checks[k] ==> k in ks
    decreases |checks|
  {
    if |checks| == 0 then []
    else
      var k := |checks| - 1;
      var prefix := checks[..k];
      assert forall i :: 0 <= i < k ==> prefix[i] == checks[i];
      CheckedIndices(prefix) + (if checks[k] then [k] else [])
  }

  /** `querySelectorAll('input[type="checkbox"]:checked')` mapped to the ids the boxes carry. */
  function CheckedIds(gallery: seq<nat>, checks: seq<bool>): (ids: seq<nat>)
    requires |checks| == |gallery|
    ensures |ids| <= |gallery| && forall j :: 0 <= j < |ids| ==> ids[j] in gallery
    ensures |ids| > 0 <==> true in checks
    ensures |ids| == |CheckedIndices(checks)|
    ensures forall j :: 0 <= j < |ids| ==> ids[j] == gallery[CheckedIndices(checks)[j]]
  {
    var ks := CheckedIndices(checks);
    assert |ks| > 0 ==> checks[ks[0]];
    assert true in checks ==> exists k :: 0 <= k < |checks| && checks[k] && k in ks;
    seq(|ks|, j requires 0 <= j < |ks| => gallery[ks[j]])
  }

  /**
   * In a consistent state, every checked box has its photo: checking N
   * boxes yields N files named `foto_1.png` … `foto_N.png`.
   */
  lemma ExportOfGallery(s: State, checks: seq<bool>)
    requires Inv(s) && |checks| == |s.gallery| && true in checks
    ensures var sel := CheckedIds(s.gallery, checks);
      var r := ExportSelection(true, sel, s.imagens);
      r.Archive? && |r.entries| == |sel| &&
      forall j :: 0 <= j < |sel| ==> r.entries[j].name == FotoName(j + 1)
  {
    var sel := CheckedIds(s.gallery, checks);
    var ks := CheckedIndices(checks);
    var k :| 0 <= k < |checks| && checks[k];
    assert k in ks;
    forall j | 0 <= j < |sel| ensures Find(s.imagens, sel[j]).Some? {
      assert sel[j] == s.imagens[ks[j]].id;
    }
    AllMatchedEntries(sel, s.imagens);
  }

  /**
   * With unique ids, the j-th file holds the payload of the j-th checked
   * photo.
   */
  lemma ExportPicksCheckedPhotos(s: State, checks: seq<bool>)
    requires Inv(s) && UniqueIds(s.imagens) && |checks| == |s.gallery| && true in checks
    ensures var sel, ks := CheckedIds(s.gallery, checks), CheckedIndices(checks);
      var r := ExportSelection(true, sel, s.imagens);
      r.Archive? && |r.entries| == |ks| &&
      forall j :: 0 <= j < |ks| ==> r.entries[j] == Entry(FotoName(j + 1), Payload(s.imagens[ks[j]].src))
  {
    var sel := CheckedIds(s.gallery, checks);
    var ks := CheckedIndices(checks);
    ExportOfGallery(s, checks);
    forall j | 0 <= j < |ks| ensures Find(s.imagens, sel[j]) == Some(s.imagens[ks[j]]) {
      FindUnique(s.imagens, ks[j]);
    }
    AllMatchedEntries(sel, s.imagens);
  }

  /**
   * A checked box whose id is carried by several photos (two captures in the
   * same millisecond) exports the earliest of them: the entry for box k holds
   * photo i's payload whenever i is the first photo with that id, even when
   * the box belongs to a later photo.
   */
  lemma {:induction false} DuplicateIdExportsFirstPhoto(selecionadas: seq<nat>, imagens: seq<Photo>, i: nat, k: nat)
    requires i < |imagens| && forall m :: 0 <= m < i ==> imagens[m].id != imagens[i].id
    requires k < |selecionadas| && selecionadas[k] == imagens[i].id
    ensures Entry(FotoName(k + 1), Payload(imagens[i].src)) in ZipEntries(selecionadas, imagens)
  {
    FindFirst(imagens, i);
    ZipEntriesByMatch(selecionadas, imagens);
    var ks := Matched(selecionadas, imagens);
    assert k in ks;
    var j :| 0 <= j < |ks| && ks[j] == k;
    assert ZipEntries(selecionadas, imagens)[j] == EntryAt(selecionadas, imagens, k);
  }
}
